=== FILE: README.md ===
# Adaptive-median background subtraction, modelled in Dafny

This project models the adaptive-median background subtractor of McFarlane
and Schofield (`AdaptiveMedianBGS`) and the 8-neighbour density post-filter
(`DensityFilter`) of the Background-Subtraction-Library.

The subtractor keeps a frame counter `m_i`, four configuration values (low
threshold, high threshold, sampling rate, learning frames) and a background
model `m_median`, a grid of three-byte pixels. Each call to `apply` works in
five steps:

1. On the first frame it seeds the model with the frame.
2. It segments the frame against the model into a low and a high mask.
   A pixel is BACKGROUND (0) in a mask iff no channel differs from the model
   by more than that mask's threshold; otherwise it is FOREGROUND (255).
3. It updates the model, gated by the frame counter and the low mask.
4. It emits the low mask.
5. It increments the counter.

The update moves each channel one unit toward the frame. It runs only on
frames with `frame % samplingRate == 1` or inside the learning window. After
the learning window it only touches pixels the low mask calls background.

The density filter keeps an interior foreground pixel only if at least
`minDensity` of its 8 neighbours are foreground in the input mask.

Files:

- `image.dfy`, module `Image`: pixel and image types, mask labels, shape
  predicates, and the density filter. The filter with separate input and
  output masks comes in two forms: a pure per-cell definition, and the
  row-major loops of the source, which are proved equal to it. The call
  that passes one mask as both input and output is modelled separately, as
  an in-place scan.
- `adaptive_median_bgs.dfy`, module `AdaptiveMedianBGS`: the subtractor as
  an immutable record `Bgs`. It has the constructor, getters and setters,
  the factory with its default arguments, `InitModel`, `SubtractPixel`,
  `Subtract`, `Update` and `Apply`.
- `convergence.dfy`, module `Convergence`: `apply` repeated on a constant
  frame. It holds the learning-window convergence, background-pixel
  convergence after the window, frozen foreground pixels, and stability
  once the model equals the frame.

Modelling choices:

- `unsigned char` is `Byte`, an `int` between 0 and 255. A `cv::Vec3b`
  pixel is a length-3 sequence of bytes. A `Mat` is a sequence of rows.
- `++` and `--` on a model channel are written with the byte type's
  wrap-around (`% 256`). `StepChannel` proves the wrap never fires, because
  the step happens only when the frame value differs from the model value.
- The `%` of the frame gate is C++ truncating remainder (`CRem`), defined
  by repeated subtraction of the divisor's magnitude; `CRemIsTruncated`
  relates it to Dafny's Euclidean `%`. The setter accepts any `int`
  sampling rate. The only demand the code makes is a non-zero divisor, so
  `Update` and `Apply` require `samplingRate != 0`.
- `Subtract` and `Update` visit the pixels of the frame
  (AdaptiveMedianBGS.cpp:50 and 140) and read the model at the same
  position; the size check is only a comment (AdaptiveMedianBGS.cpp:134).
  The model therefore requires, after the first frame, that the frame fit
  inside the model (`FitsIn`). A smaller frame is segmented against the
  model's top-left block and updates only that block; the rest of the
  model is left alone. A larger frame reads outside the model in the
  source and is excluded. The demo driver (main.cpp:135-146) feeds frames
  of one video, which all have one size.
- `BACKGROUND` and `FOREGROUND` are not defined in the modelled files. They
  are 0 and 255, following the comment at AdaptiveMedianBGS.cpp:126-129.
- `DensityFilter` takes a read-only input mask and a separate output mask
  (Image.cpp:20). Nothing stops a caller from passing one mask as both.
  Then each neighbour count reads cells already rewritten above and to the
  left of it. `Image.DensityFilterInPlace` models that call. It removes at
  least what the separate-mask filter removes, and on some masks strictly
  more.

Facts of the code the contracts make visible:

- A pixel the low mask calls background is still updated: the pixel gate
  lets it through (AdaptiveMedianBGS.cpp:55-60), so the model keeps moving
  toward the frame on every frame that passes the frame gate.
  `Convergence.DualThresholdWalkthrough` shows a background pixel moving
  from 102 to 103.
- The filter's loops run over rows and columns 1 to size-2 (Image.cpp:22-24)
  and write only those cells, so the border of the output mask keeps
  whatever it held before.
- A sampling rate of 1 or -1 never passes `frame_num % samplingRate == 1`
  (AdaptiveMedianBGS.cpp:42), so after the learning window the model no
  longer changes (`AdaptiveMedianBGS.UnitSamplingRateFreezesModel`).

## Model

| member | source | states |
|---|---|---|
| `AdaptiveMedianBGS.NewBgs` | AdaptiveMedianBGS.cpp:18-24 | a fresh subtractor has counter 0 and no model, and its initial configuration is the factory's default arguments: low 40, high 80, sampling rate 7, learning frames 30 |
| `AdaptiveMedianBGS.SetLowThreshold` | AdaptiveMedianBGS.hpp:58 | the low-threshold getter returns the value set; the other three settings, the counter and the model are unchanged |
| `AdaptiveMedianBGS.SetHighThreshold` | AdaptiveMedianBGS.hpp:59 | the high-threshold getter returns the value set; everything else is unchanged |
| `AdaptiveMedianBGS.SetSamplingRate` | AdaptiveMedianBGS.hpp:60 | the sampling-rate getter returns the value set; everything else is unchanged |
| `AdaptiveMedianBGS.SetLearningFrames` | AdaptiveMedianBGS.hpp:61 | the learning-frames getter returns the value set; everything else is unchanged |
| `AdaptiveMedianBGS.CreateAdaptiveMedianBGS` | AdaptiveMedianBGS.cpp:153-161 | the factory's product reports exactly the four arguments through the getters, with counter 0 and an empty model; no threshold ordering is imposed |
| `AdaptiveMedianBGS.FactoryDefaultsMatchConstructor` | AdaptiveMedianBGS.hpp:89-91 | the factory with its default arguments (40, 80, 7, 30) gives the default-constructed subtractor |
| `AdaptiveMedianBGS.GettersRebuildConfiguration` | AdaptiveMedianBGS.hpp:63-66 | the four getters report the whole configuration: the factory fed their values rebuilds the subtractor, with counter 0 and an empty model |
| `AdaptiveMedianBGS.InitModel` | AdaptiveMedianBGS.cpp:34-38 | the background image becomes the frame; counter and configuration are unchanged |
| `AdaptiveMedianBGS.SubtractPixel` | AdaptiveMedianBGS.cpp:98-121 | a pixel is BACKGROUND in the low (high) mask iff every channel differs from the model by at most the low (high) threshold, and FOREGROUND otherwise |
| `AdaptiveMedianBGS.Subtract` | AdaptiveMedianBGS.cpp:131-151 | for a frame that fits inside the model, both masks have the frame's shape, hold only BACKGROUND or FOREGROUND, and label each pixel by the per-mask tolerance rule against the model pixel at the same position |
| `AdaptiveMedianBGS.ThresholdMonotone` | AdaptiveMedianBGS.cpp:110-120 | when low <= high, every pixel that is BACKGROUND in the low mask is BACKGROUND in the high mask |
| `AdaptiveMedianBGS.InvertedThresholdsDisagree` | AdaptiveMedianBGS.hpp:58-59 | when high < low, a pixel differing by exactly low in one channel is BACKGROUND in the low mask and FOREGROUND in the high mask |
| `AdaptiveMedianBGS.CRem` | AdaptiveMedianBGS.cpp:42 | the remainder of `frame_num % samplingRate` takes the sign of the dividend: for a non-negative dividend it lies in 0 .. \|rate\|-1, for a negative one in -(\|rate\|-1) .. 0 |
| `AdaptiveMedianBGS.CRemIsTruncated` | AdaptiveMedianBGS.cpp:42 | the remainder equals the Euclidean remainder of the dividend's magnitude by the rate's magnitude, with the dividend's sign put back |
| `AdaptiveMedianBGS.StepChannel` | AdaptiveMedianBGS.cpp:62-72 | the channel becomes old+1 if the frame is larger, old-1 if smaller, old if equal, with no byte wrap-around; its gap to the frame value shrinks by exactly one unless already zero |
| `AdaptiveMedianBGS.UpdatePixel` | AdaptiveMedianBGS.cpp:62-72 | each of the three channels moves at most one unit and closes one unit of its gap to the frame, unless the gap is already zero |
| `AdaptiveMedianBGS.Update` | AdaptiveMedianBGS.cpp:40-74 | the model keeps its shape; off the frame gate it is unchanged byte for byte; model cells outside the frame are unchanged; a pixel failing the pixel gate is unchanged; every other pixel steps one unit toward the frame |
| `AdaptiveMedianBGS.UnitSamplingRateFreezesModel` | AdaptiveMedianBGS.cpp:42-47 | with sampling rate 1 or -1, no update happens after the learning window |
| `AdaptiveMedianBGS.UpdateFixedPoint` | AdaptiveMedianBGS.cpp:62-72 | a model equal to the frame is left equal to the frame by Update, whatever the gates |
| `AdaptiveMedianBGS.Apply` | AdaptiveMedianBGS.cpp:76-96 | the counter rises by exactly one and the configuration is unchanged; the mask has the frame's shape; the new model has the shape of the model the frame is segmented against (the frame itself on the first call), and the frame fits inside it; on the first call the emitted mask is all BACKGROUND; the emitted mask labels each pixel against the model as it was before the update; the new model is Update applied with that mask; after the first frame, off the frame gate the model is unchanged |
| `AdaptiveMedianBGS.ApplyKeepsModelOutsideFrame` | AdaptiveMedianBGS.cpp:50-73 | after the first frame, the model cells outside a smaller frame keep their values through one apply |
| `AdaptiveMedianBGS.SmallerFrameUpdatesTopLeftBlock` | AdaptiveMedianBGS.cpp:50-73 | a one-pixel frame 105 against a two-pixel model of 100, inside the learning window, moves the first pixel to 101 and leaves the second at 100 |
| `AdaptiveMedianBGS.FirstFrameSeedsModel` | AdaptiveMedianBGS.cpp:79-91 | after the first apply the background image equals the first frame |
| `AdaptiveMedianBGS.ApplyNeverMovesAway` | AdaptiveMedianBGS.cpp:88-91 | no channel of the model gets farther from the frame during one apply |
| `AdaptiveMedianBGS.LearningApplyStepsEveryPixel` | AdaptiveMedianBGS.cpp:42-72 | inside the learning window, one apply moves every frame pixel of the model one unit step toward the frame, whatever the mask says |
| `AdaptiveMedianBGS.BackgroundPixelStep` | AdaptiveMedianBGS.cpp:42-72 | a pixel within the low threshold steps toward the frame when the frame passes the frame gate and keeps its value otherwise, and stays within the low threshold |
| `AdaptiveMedianBGS.ForegroundPixelStep` | AdaptiveMedianBGS.cpp:54-60 | after the learning window, a pixel outside the low threshold keeps its value through one apply |
| `Convergence.FeedConstant` | AdaptiveMedianBGS.cpp:95 | n calls of apply advance the counter by n and keep the configuration; after the first frame they keep the model's shape, and the frame keeps fitting inside the model |
| `Convergence.EligibleFrames` | AdaptiveMedianBGS.cpp:42-47 | the number of frames that pass the frame gate in a run of n frames is at most n, and exactly n inside the learning window |
| `Convergence.LearningConverges` | AdaptiveMedianBGS.cpp:54-72 | inside the learning window, n frames of a constant frame shrink every channel gap of every frame pixel by n, or close it |
| `Convergence.LearningPixelConverges` | AdaptiveMedianBGS.cpp:54-72 | inside the learning window, n frames of a constant frame shrink every channel gap of one frame pixel by n, or close it |
| `Convergence.LearningReachesFrame` | AdaptiveMedianBGS.cpp:62-72 | a learning run at least as long as the largest channel gap makes the model equal to the frame |
| `Convergence.ConvergedModelIsStable` | AdaptiveMedianBGS.cpp:62-72 | once the model equals a constant frame, further frames never change it |
| `Convergence.BackgroundPixelConverges` | AdaptiveMedianBGS.cpp:40-72 | a pixel within the low threshold of a constant frame stays within it, and each frame passing the frame gate closes one more unit of every channel gap |
| `Convergence.ForegroundPixelFrozen` | AdaptiveMedianBGS.cpp:55-60 | after the learning window, a pixel outside the low threshold of a constant frame keeps its model value forever |
| `Convergence.DualThresholdWalkthrough` | AdaptiveMedianBGS.cpp:103-120 | model 100 against frame 105 with thresholds 3 and 10 gives low FOREGROUND and high BACKGROUND at gaps 5 and 4, both BACKGROUND at gap 3, and the update still moves 102 to 103 |
| `Image.CountFg` | Image.cpp:26-44 | a neighbour count never exceeds the number of neighbours examined |
| `Image.FgNeighbours` | Image.cpp:26-44 | the foreground-neighbour count of a pixel lies between 0 and 8 |
| `Image.UnrolledCount` | Image.cpp:26-44 | the eight explicit neighbour tests add up to the count over the 8-neighbourhood |
| `Image.CountEachNeighbour` | Image.cpp:29-44 | the neighbour count is the sum of eight separate tests, one per neighbour offset |
| `Image.FilterCell` | Image.cpp:27-54 | an interior cell becomes the foreground value iff it is foreground in the input and has at least minDensity foreground neighbours; otherwise 0 |
| `Image.DensityFilter` | Image.cpp:20-57 | with separate input and output masks, the output has the shape of filtered; cells off the input's interior keep their value; interior cells are 0 or the foreground value; a non-foreground input cell gives 0; a foreground one survives iff its neighbour count reaches minDensity; masks under 3x3 leave filtered unchanged |
| `Image.ScanDensityFilter` | Image.cpp:22-56 | with separate input and output masks, the row-major loops produce exactly the order-free result, because each write reads only the input mask |
| `Image.NonPositiveDensityKeepsForeground` | Image.cpp:46-49 | with minDensity <= 0 every interior foreground pixel survives and every other interior pixel is 0 |
| `Image.ExcessiveDensityClearsInterior` | Image.cpp:26-47 | with minDensity above 8 every interior cell becomes 0 |
| `Image.FilterOnlyRemovesForeground` | Image.cpp:27-54 | for a non-zero foreground value, an interior output cell equal to it was foreground in the input |
| `Image.ZeroForegroundValueAddsForeground` | Image.cpp:51-54 | with foreground value 0, a non-foreground interior input cell is written 0 and so reads as foreground |
| `Image.ScanStep` | Image.cpp:26-54 | one step of the in-place scan writes cell (r, c) with the filter's value for the current mask and leaves every other cell unchanged; it adds no foreground for a non-zero foreground value |
| `Image.FilterInPlaceFrom` | Image.cpp:22-56 | the scan from cell (r, c) onward keeps the shape, leaves the border and the cells already visited unchanged, writes only 0 or the foreground value, writes 0 over every non-foreground cell, and adds no foreground for a non-zero foreground value |
| `Image.DensityFilterInPlace` | Image.cpp:20-57 | with one mask as input and output, the border is unchanged, every interior cell becomes 0 or the foreground value, and a non-foreground interior cell becomes 0 |
| `Image.CountFgMonotone` | Image.cpp:29-44 | a mask whose foreground cells are among another's has no more foreground neighbours at any cell |
| `Image.InPlaceKeepsOnlyKept` | Image.cpp:22-56 | for a non-zero foreground value, from cell (r, c) on, the in-place scan of a mask whose foreground is among the original's keeps a cell only if it is foreground in the original with at least minDensity foreground neighbours there |
| `Image.InPlaceRemovesAtLeastAsMuch` | Image.cpp:20-57 | for every foreground value, every cell the in-place call keeps as foreground is kept by the separate-mask filter too |
| `Image.InPlaceDiffersFromSeparateMasks` | Image.cpp:20-57 | on a 4x4 all-foreground mask with its corner cleared and minDensity 8, cell (1, 2) survives with separate masks and is removed in place |
| `Image.DensityWalkthroughKept` | Image.cpp:27-49 | in a 5x5 all-foreground mask with minDensity 5 the centre pixel survives |
| `Image.DensityWalkthroughRemoved` | Image.cpp:27-49 | with 4 of the centre's neighbours cleared the centre pixel is removed |

## Left out

- Eigenbackground.cpp: its core is PCA through an external linear-algebra
  library with floating-point distances, and its update is a no-op.
- main.cpp: video reading and writing and console logging, all I/O.
- OpenCV storage: `Mat` allocation, `clone`, `copyTo` and the possibly
  parallel `forEach` become sequences and pure per-pixel maps. The per-pixel
  steps do not depend on one another, so the order is irrelevant.
- The unused `learningRate` argument of `apply` and the unused `frame_num`
  argument of `Subtract` are dropped.
- Image.hpp's commented-out iterator; only its pixel and image types are
  used.
- The `int` frame counter is a natural number: its overflow on very long
  streams is not modelled.
- Pixel types other than three-channel bytes (the source's `cv::Mat` input is
  assumed to hold `Vec3b` pixels).
- `getBackgroundImage` is the accessor `GetBackgroundImage`. It only returns
  the model and cannot change the record, so it has no contract of its own.
- Image.FilterOnlyRemovesForeground: requires a non-zero foreground value,
  because with foreground value 0 the property fails, as
  Image.ZeroForegroundValueAddsForeground shows.
- Image.DensityFilter: states the filter for separate input and output
  masks only; the call with one mask in both places is
  `Image.DensityFilterInPlace`.
- Image.DensityFilter: requires the output mask to cover the input's
  interior (`CoversInterior`); a smaller output mask is written out of
  bounds at Image.cpp:47, 49 and 53 in the source, which is undefined
  behaviour.
- Image.ScanDensityFilter: proves the loops equal to the order-free filter
  for separate input and output masks only; with one shared mask the
  order matters, which `Image.InPlaceDiffersFromSeparateMasks` shows.
- AdaptiveMedianBGS.Apply: after the first frame requires the frame to fit
  inside the model; a larger frame reads and writes outside the model in
  the source, which is undefined behaviour.
- AdaptiveMedianBGS.Subtract: requires the frame to fit inside the model,
  for the same reason.
- AdaptiveMedianBGS.Update: requires the frame to fit inside the model and
  the mask to have the frame's shape, for the same reason.

=== FILE: adaptive_median_bgs.dfy ===
/**
 The adaptive-median background subtractor of McFarlane and Schofield.

 The subtractor keeps a frame counter, four configuration values and a
 background model with one RGB pixel per location. Each frame is segmented
 against the model under a low and a high threshold, and the model is then
 moved one intensity unit per channel toward the frame, on sampled frames
 and only where the low mask says background (or always while learning).

 The object is modelled as an immutable record; every member function that
 changes it returns the new record.
 */
module AdaptiveMedianBGS {
  import opened Image

  /** The subtractor's fields: the frame counter `i`, the configuration and
      the background model (`median`, empty before the first frame). */
  datatype Bgs = Bgs(
    i: nat,
    lowThreshold: Byte,
    highThreshold: Byte,
    samplingRate: int,
    learningFrames: int,
    median: RgbImage)

  /** Default arguments of the factory function. */
  const DEFAULT_LOW_THRESHOLD: Byte := 40
  const DEFAULT_HIGH_THRESHOLD: Byte := 80
  const DEFAULT_SAMPLING_RATE: int := 7
  const DEFAULT_LEARNING_FRAMES: int := 30

  // ---------------------------------------------------------------------
  // Construction, getters and setters
  // ---------------------------------------------------------------------

  /** The default constructor: counter 0, built-in configuration, no model. */
  function NewBgs(): (s: Bgs)
    ensures s.i == 0 && s.median == []
    ensures GetLowThreshold(s) == DEFAULT_LOW_THRESHOLD && GetHighThreshold(s) == DEFAULT_HIGH_THRESHOLD
    ensures GetSamplingRate(s) == DEFAULT_SAMPLING_RATE && GetLearningFrames(s) == DEFAULT_LEARNING_FRAMES
  {
    Bgs(0, 40, 80, 7, 30, [])
  }

  function GetLowThreshold(s: Bgs): Byte { s.lowThreshold }
  function GetHighThreshold(s: Bgs): Byte { s.highThreshold }
  function GetSamplingRate(s: Bgs): int { s.samplingRate }
  function GetLearningFrames(s: Bgs): int { s.learningFrames }

  /** The model as `getBackgroundImage` copies it out. */
  function GetBackgroundImage(s: Bgs): RgbImage { s.median }

  function SetLowThreshold(s: Bgs, v: Byte): (s': Bgs)
    ensures GetLowThreshold(s') == v
    ensures GetHighThreshold(s') == GetHighThreshold(s)
    ensures GetSamplingRate(s') == GetSamplingRate(s)
    ensures GetLearningFrames(s') == GetLearningFrames(s)
    ensures s'.i == s.i && GetBackgroundImage(s') == GetBackgroundImage(s)
  {
    s.(lowThreshold := v)
  }

  function SetHighThreshold(s: Bgs, v: Byte): (s': Bgs)
    ensures GetHighThreshold(s') == v
    ensures GetLowThreshold(s') == GetLowThreshold(s)
    ensures GetSamplingRate(s') == GetSamplingRate(s)
    ensures GetLearningFrames(s') == GetLearningFrames(s)
    ensures s'.i == s.i && GetBackgroundImage(s') == GetBackgroundImage(s)
  {
    s.(highThreshold := v)
  }

  function SetSamplingRate(s: Bgs, v: int): (s': Bgs)
    ensures GetSamplingRate(s') == v
    ensures GetLowThreshold(s') == GetLowThreshold(s)
    ensures GetHighThreshold(s') == GetHighThreshold(s)
    ensures GetLearningFrames(s') == GetLearningFrames(s)
    ensures s'.i == s.i && GetBackgroundImage(s') == GetBackgroundImage(s)
  {
    s.(samplingRate := v)
  }

  function SetLearningFrames(s: Bgs, v: int): (s': Bgs)
    ensures GetLearningFrames(s') == v
    ensures GetLowThreshold(s') == GetLowThreshold(s)
    ensures GetHighThreshold(s') == GetHighThreshold(s)
    ensures GetSamplingRate(s') == GetSamplingRate(s)
    ensures s'.i == s.i && GetBackgroundImage(s') == GetBackgroundImage(s)
  {
    s.(learningFrames := v)
  }

  /** The factory: a default-constructed subtractor configured by the four
      setters. Any threshold pair is accepted, `high < low` included. */
  function CreateAdaptiveMedianBGS(
    low: Byte := DEFAULT_LOW_THRESHOLD, high: Byte := DEFAULT_HIGH_THRESHOLD,
    samplingRate: int := DEFAULT_SAMPLING_RATE, learningFrames: int := DEFAULT_LEARNING_FRAMES): (s: Bgs)
    ensures GetLowThreshold(s) == low && GetHighThreshold(s) == high
    ensures GetSamplingRate(s) == samplingRate && GetLearningFrames(s) == learningFrames
    ensures s.i == 0 && GetBackgroundImage(s) == []
  {
    SetLearningFrames(SetSamplingRate(SetHighThreshold(SetLowThreshold(NewBgs(), low), high), samplingRate), learningFrames)
  }

  /** The factory's default arguments agree with the constructor's initial
      values. */
  lemma FactoryDefaultsMatchConstructor()
    ensures CreateAdaptiveMedianBGS() == NewBgs()
  {
  }

  /** The getters report the whole configuration: the factory called with
      the four values they return rebuilds the subtractor, up to its counter
      and its model. */
  lemma GettersRebuildConfiguration(s: Bgs)
    ensures CreateAdaptiveMedianBGS(GetLowThreshold(s), GetHighThreshold(s), GetSamplingRate(s), GetLearningFrames(s))
            == s.(i := 0, median := [])
  {
  }

  /** `InitModel`: the model becomes a copy of the frame. */
  function InitModel(s: Bgs, frame: RgbImage): (s': Bgs)
    ensures GetBackgroundImage(s') == frame
    ensures s'.i == s.i
    ensures GetLowThreshold(s') == GetLowThreshold(s) && GetHighThreshold(s') == GetHighThreshold(s)
    ensures GetSamplingRate(s') == GetSamplingRate(s) && GetLearningFrames(s') == GetLearningFrames(s)
  {
    s.(median := frame)
  }

  // ---------------------------------------------------------------------
  // Segmentation
  // ---------------------------------------------------------------------

  /** Every channel of `p` is within `t` of the same channel of `q`. */
  predicate WithinTolerance(p: RgbPixel, q: RgbPixel, t: int)
  {
    forall ch :: 0 <= ch < NUM_CHANNELS ==> Diff(p[ch], q[ch]) <= t
  }

  /** The two labels `SubtractPixel` produces for one pixel. */
  datatype Labels = Labels(low: Byte, high: Byte)

  /** Labels a pixel against its model pixel: BACKGROUND in a mask iff no
      channel differs by more than that mask's threshold. */
  function SubtractPixel(low: Byte, high: Byte, pixel: RgbPixel, model: RgbPixel): (labels: Labels)
    ensures labels.low == BACKGROUND <==> WithinTolerance(pixel, model, low)
    ensures labels.low == FOREGROUND <==> !WithinTolerance(pixel, model, low)
    ensures labels.high == BACKGROUND <==> WithinTolerance(pixel, model, high)
    ensures labels.high == FOREGROUND <==> !WithinTolerance(pixel, model, high)
  {
    var diffR := Diff(pixel[0], model[0]);
    var diffG := Diff(pixel[1], model[1]);
    var diffB := Diff(pixel[2], model[2]);
    var lowLabel := if diffR <= low && diffG <= low && diffB <= low then BACKGROUND else FOREGROUND;
    var highLabel := if diffR <= high && diffG <= high && diffB <= high then BACKGROUND else FOREGROUND;
    Labels(lowLabel, highLabel)
  }

  /** The low- and high-threshold masks of one frame. */
  datatype Masks = Masks(low: BwImage, high: BwImage)

  /** `Subtract`: segments a frame against the current model. It returns only
      the masks; the counter and the model are not part of its result. A
      frame smaller than the model is compared with the model's top-left
      block. */
  function Subtract(s: Bgs, frame: RgbImage): (m: Masks)
    requires FitsIn(frame, s.median)
    ensures SameShape(m.low, frame) && SameShape(m.high, frame)
    ensures forall r, c :: 0 <= r < |frame| && 0 <= c < |frame[r]| ==>
              (m.low[r][c] == BACKGROUND || m.low[r][c] == FOREGROUND)
              && (m.low[r][c] == BACKGROUND <==> WithinTolerance(frame[r][c], s.median[r][c], s.lowThreshold))
    ensures forall r, c :: 0 <= r < |frame| && 0 <= c < |frame[r]| ==>
              (m.high[r][c] == BACKGROUND || m.high[r][c] == FOREGROUND)
              && (m.high[r][c] == BACKGROUND <==> WithinTolerance(frame[r][c], s.median[r][c], s.highThreshold))
  {
    var labels := seq(|frame|, r requires 0 <= r < |frame| =>
      seq(|frame[r]|, c requires 0 <= c < |frame[r]| =>
        SubtractPixel(s.lowThreshold, s.highThreshold, frame[r][c], s.median[r][c])));
    Masks(
      seq(|frame|, r requires 0 <= r < |frame| => seq(|frame[r]|, c requires 0 <= c < |frame[r]| => labels[r][c].low)),
      seq(|frame|, r requires 0 <= r < |frame| => seq(|frame[r]|, c requires 0 <= c < |frame[r]| => labels[r][c].high)))
  }

  /** With `low <= high`, a pixel the low mask calls background is background
      in the high mask too. */
  lemma ThresholdMonotone(s: Bgs, frame: RgbImage)
    requires FitsIn(frame, s.median)
    requires s.lowThreshold <= s.highThreshold
    ensures var m := Subtract(s, frame);
            forall r, c :: 0 <= r < |frame| && 0 <= c < |frame[r]| && m.low[r][c] == BACKGROUND ==>
              m.high[r][c] == BACKGROUND
  {
  }

  /** Thresholds are not checked against each other: with `high < low` a pixel
      can be background in the low mask and foreground in the high mask. */
  lemma InvertedThresholdsDisagree(low: Byte, high: Byte)
    requires high < low
    ensures SubtractPixel(low, high, [low, 0, 0], [0, 0, 0]) == Labels(BACKGROUND, FOREGROUND)
  {
  }

  // ---------------------------------------------------------------------
  // Model update
  // ---------------------------------------------------------------------

  /** `a % b` as C++ computes it on `int`: the remainder of division
      truncated toward zero, which takes the sign of `a` and ignores the sign
      of `b`. It is defined by repeated subtraction of `|b|`; `CRemIsTruncated`
      relates it to Dafny's Euclidean `%`. */
  function CRem(a: int, b: int): (m: int)
    requires b != 0
    ensures a >= 0 ==> 0 <= m < Abs(b)
    ensures a < 0 ==> m <= 0 && 0 < m + Abs(b)
    decreases if a < 0 then 1 - a else a
  {
    if a < 0 then -CRem(-a, b)
    else if a < Abs(b) then a
    else CRem(a - Abs(b), b)
  }

  /** The truncated remainder agrees with the Euclidean one on the magnitude
      of `a`, with the sign of `a` put back. */
  lemma CRemIsTruncated(a: int, b: int)
    requires b != 0
    ensures CRem(a, b) == if a >= 0 then a % Abs(b) else -((-a) % Abs(b))
  {
    if a < 0 {
      CRemOfNatural(-a, b);
    } else {
      CRemOfNatural(a, b);
    }
  }

  /** On a non-negative dividend the truncated and Euclidean remainders
      coincide. */
  lemma {:induction false} CRemOfNatural(a: nat, b: int)
    requires b != 0
    ensures CRem(a, b) == a % Abs(b)
    decreases a
  {
    var d := Abs(b);
    if a >= d {
      var x: nat := a - d;
      assert CRem(a, b) == CRem(x, b);
      CRemOfNatural(x, b);
      ModShift(x, d);
      assert x + d == a;
    }
  }

  /** `d * k` is at least `d` for positive `d` and `k`. */
  lemma MulAtLeast(d: int, k: int)
    requires d > 0 && k >= 1
    ensures d * k >= d
  {
  }

  lemma MulDistrib(d: int, q: int)
    ensures d * (q + 1) == d * q + d
  {
  }

  /** Adding the divisor does not change the Euclidean remainder. */
  lemma ModShift(x: int, d: int)
    requires d > 0
    ensures (x + d) % d == x % d
  {
    var q, r := x / d, x % d;
    var q2, r2 := (x + d) / d, (x + d) % d;
    assert x == d * q + r;
    assert x + d == d * q2 + r2;
    MulDistrib(d, q);
    var k := q + 1 - q2;
    assert d * k == d * (q + 1) - d * q2 by {
      assert d * k == d * (q + 1) + d * (-q2);
    }
    assert d * k == r2 - r;
    if k >= 1 {
      MulAtLeast(d, k);
    } else if k <= -1 {
      MulAtLeast(d, -k);
    }
  }

  /** The frame-level gate: a sampled frame, or a frame of the learning window. */
  predicate FrameGate(samplingRate: int, learningFrames: int, frameNum: int)
    requires samplingRate != 0
  {
    CRem(frameNum, samplingRate) == 1 || frameNum < learningFrames
  }

  /** The frame-level gate with the subtractor's own configuration. */
  predicate SamplesFrame(s: Bgs, frameNum: int)
    requires s.samplingRate != 0
  {
    FrameGate(s.samplingRate, s.learningFrames, frameNum)
  }

  /** The pixel-level gate: the low mask says background, or we are learning. */
  predicate UpdatesPixel(s: Bgs, frameNum: int, maskValue: Byte)
  {
    maskValue == BACKGROUND || frameNum < s.learningFrames
  }

  /** A gap after `k` unit steps toward the target, never below zero. */
  function Decay(gap: nat, k: nat): nat
  {
    if gap <= k then 0 else gap - k
  }

  /** One channel moves one unit toward `data`, as `++` / `--` on an
      `unsigned char` would: the wrap-around of the byte type is written out,
      and the contract shows it never fires. */
  function StepChannel(data: Byte, model: Byte): (v: Byte)
    ensures data > model ==> v == model + 1
    ensures data < model ==> v == model - 1
    ensures data == model ==> v == model
    ensures Diff(data, v) == Decay(Diff(data, model), 1)
    ensures Diff(model, v) <= 1
  {
    if data > model then (model + 1) % 256
    else if data < model then (model - 1) % 256
    else model
  }

  /** Each channel of `next` is one step from `prev` toward `target`. */
  predicate SteppedToward(prev: RgbPixel, next: RgbPixel, target: RgbPixel)
  {
    forall ch :: 0 <= ch < NUM_CHANNELS ==>
      Diff(target[ch], next[ch]) == Decay(Diff(target[ch], prev[ch]), 1) && Diff(prev[ch], next[ch]) <= 1
  }

  /** The per-pixel body of `Update`: every channel steps toward the frame. */
  function UpdatePixel(data: RgbPixel, model: RgbPixel): (p: RgbPixel)
    ensures SteppedToward(model, p, data)
  {
    seq(NUM_CHANNELS, ch requires 0 <= ch < NUM_CHANNELS => StepChannel(data[ch], model[ch]))
  }

  /** `Update`: the new model after frame `frameNum`, given the frame and its
      low mask. Off the frame gate the model is unchanged byte for byte;
      otherwise every pixel passing the pixel gate steps toward the frame and
      every other pixel keeps its value. Only pixels of the frame are
      visited, so a frame smaller than the model leaves the rest of the
      model alone. */
  function Update(s: Bgs, frameNum: int, data: RgbImage, mask: BwImage): (median': RgbImage)
    requires s.samplingRate != 0
    requires FitsIn(data, s.median) && SameShape(mask, data)
    ensures SameShape(median', s.median)
    ensures !SamplesFrame(s, frameNum) ==> median' == s.median
    ensures forall r, c :: 0 <= r < |s.median| && 0 <= c < |s.median[r]| && !(r < |data| && c < |data[r]|) ==>
              median'[r][c] == s.median[r][c]
    ensures forall r, c :: 0 <= r < |data| && 0 <= c < |data[r]| && !UpdatesPixel(s, frameNum, mask[r][c]) ==>
              median'[r][c] == s.median[r][c]
    ensures forall r, c :: 0 <= r < |data| && 0 <= c < |data[r]| ==>
              if SamplesFrame(s, frameNum) && UpdatesPixel(s, frameNum, mask[r][c])
              then SteppedToward(s.median[r][c], median'[r][c], data[r][c])
              else median'[r][c] == s.median[r][c]
  {
    if !SamplesFrame(s, frameNum) then s.median
    else
      seq(|s.median|, r requires 0 <= r < |s.median| =>
        seq(|s.median[r]|, c requires 0 <= c < |s.median[r]| =>
          if r < |data| && c < |data[r]| && UpdatesPixel(s, frameNum, mask[r][c])
          then UpdatePixel(data[r][c], s.median[r][c])
          else s.median[r][c]))
  }

  /** A sampling rate of 1 (or -1) never passes the `% == 1` test, so after
      the learning window the model is frozen. */
  lemma UnitSamplingRateFreezesModel(s: Bgs, frameNum: int, data: RgbImage, mask: BwImage)
    requires s.samplingRate == 1 || s.samplingRate == -1
    requires FitsIn(data, s.median) && SameShape(mask, data)
    requires frameNum >= s.learningFrames
    ensures Update(s, frameNum, data, mask) == s.median
  {
  }

  /** A model equal to the frame is a fixed point of `Update`, whatever the
      gates say. */
  lemma UpdateFixedPoint(s: Bgs, frameNum: int, data: RgbImage, mask: BwImage)
    requires s.samplingRate != 0
    requires SameShape(mask, data)
    requires s.median == data
    ensures Update(s, frameNum, data, mask) == data
  {
    var m := Update(s, frameNum, data, mask);
    forall r | 0 <= r < |data|
      ensures m[r] == data[r]
    {
      forall c | 0 <= c < |data[r]|
        ensures m[r][c] == data[r][c]
      {
        var p, q := m[r][c], data[r][c];
        forall ch | 0 <= ch < NUM_CHANNELS
          ensures p[ch] == q[ch]
        {
        }
      }
    }
  }

  // ---------------------------------------------------------------------
  // The per-frame driver
  // ---------------------------------------------------------------------

  /** What `apply` leaves behind: the new subtractor and the emitted mask. */
  datatype Step = Step(next: Bgs, fgmask: BwImage)

  /** The model the frame is segmented against: the frame itself on the
      first call, otherwise the current model. */
  function ModelBefore(s: Bgs, frame: RgbImage): RgbImage
  {
    if s.i == 0 then frame else s.median
  }

  /** `apply`: seed the model on the first frame, segment the frame against
      the model, update the model from the low mask, emit the low mask and
      advance the counter. After the first frame the frame must lie inside
      the model; a smaller frame is applied to the model's top-left block. */
  function Apply(s: Bgs, frame: RgbImage): (st: Step)
    requires s.samplingRate != 0
    requires s.i != 0 ==> FitsIn(frame, s.median)
    ensures st.next.i == s.i + 1
    ensures GetLowThreshold(st.next) == GetLowThreshold(s) && GetHighThreshold(st.next) == GetHighThreshold(s)
    ensures GetSamplingRate(st.next) == GetSamplingRate(s) && GetLearningFrames(st.next) == GetLearningFrames(s)
    ensures SameShape(st.fgmask, frame) && SameShape(st.next.median, ModelBefore(s, frame))
    ensures FitsIn(frame, st.next.median)
    ensures s.i == 0 ==> forall r, c :: 0 <= r < |frame| && 0 <= c < |frame[r]| ==> st.fgmask[r][c] == BACKGROUND
    ensures forall r, c :: 0 <= r < |frame| && 0 <= c < |frame[r]| ==>
              (st.fgmask[r][c] == BACKGROUND || st.fgmask[r][c] == FOREGROUND)
              && (st.fgmask[r][c] == BACKGROUND <==> WithinTolerance(frame[r][c], ModelBefore(s, frame)[r][c], s.lowThreshold))
    ensures st.next.median == Update(s.(median := ModelBefore(s, frame)), s.i, frame, st.fgmask)
    ensures s.i != 0 && !SamplesFrame(s, s.i) ==> st.next.median == s.median
  {
    var seeded := if s.i == 0 then InitModel(s, frame) else s;
    var masks := Subtract(seeded, frame);
    var median' := Update(seeded, s.i, frame, masks.low);
    Step(seeded.(median := median', i := s.i + 1), masks.low)
  }

  /** A frame smaller than the model leaves the model outside the frame
      untouched. */
  lemma ApplyKeepsModelOutsideFrame(s: Bgs, frame: RgbImage)
    requires s.samplingRate != 0 && s.i != 0 && FitsIn(frame, s.median)
    ensures var m := Apply(s, frame).next.median;
            forall r, c :: 0 <= r < |s.median| && 0 <= c < |s.median[r]| && !(r < |frame| && c < |frame[r]|) ==>
              m[r][c] == s.median[r][c]
  {
  }

  /** On the first frame the model is seeded with the frame and stays equal
      to it after the update. */
  lemma FirstFrameSeedsModel(s: Bgs, frame: RgbImage)
    requires s.samplingRate != 0 && s.i == 0
    ensures GetBackgroundImage(Apply(s, frame).next) == frame
  {
    var st := Apply(s, frame);
    UpdateFixedPoint(s.(median := frame), 0, frame, st.fgmask);
  }

  /** Within one `apply` the model never moves away from the frame: every
      channel gap to the frame shrinks by one or stays. */
  lemma ApplyNeverMovesAway(s: Bgs, frame: RgbImage)
    requires s.samplingRate != 0 && s.i != 0 && FitsIn(frame, s.median)
    ensures var m := Apply(s, frame).next.median;
            forall r, c, ch :: 0 <= r < |frame| && 0 <= c < |frame[r]| && 0 <= ch < NUM_CHANNELS ==>
              Diff(frame[r][c][ch], m[r][c][ch]) <= Diff(frame[r][c][ch], s.median[r][c][ch])
  {
  }

  /** Inside the learning window one `apply` after the first frame moves
      every pixel of the frame one step toward it, whatever the mask says. */
  lemma LearningApplyStepsEveryPixel(s: Bgs, frame: RgbImage)
    requires s.samplingRate != 0 && s.i != 0 && FitsIn(frame, s.median)
    requires s.i < s.learningFrames
    ensures var m := Apply(s, frame).next.median;
            forall r, c :: 0 <= r < |frame| && 0 <= c < |frame[r]| ==> SteppedToward(s.median[r][c], m[r][c], frame[r][c])
  {
  }

  /** After the first frame, a pixel within the low threshold of the frame
      steps one unit toward it on a frame that passes the frame gate and
      keeps its value otherwise; either way it stays within the threshold. */
  lemma BackgroundPixelStep(s: Bgs, frame: RgbImage, r: int, c: int)
    requires s.samplingRate != 0 && s.i != 0 && FitsIn(frame, s.median)
    requires 0 <= r < |frame| && 0 <= c < |frame[r]|
    requires WithinTolerance(frame[r][c], s.median[r][c], s.lowThreshold)
    ensures if SamplesFrame(s, s.i) then SteppedToward(s.median[r][c], Apply(s, frame).next.median[r][c], frame[r][c])
            else Apply(s, frame).next.median[r][c] == s.median[r][c]
    ensures WithinTolerance(frame[r][c], Apply(s, frame).next.median[r][c], s.lowThreshold)
  {
  }

  /** After the learning window, a pixel outside the low threshold of the
      frame is not updated by `apply`. */
  lemma ForegroundPixelStep(s: Bgs, frame: RgbImage, r: int, c: int)
    requires s.samplingRate != 0 && s.i != 0 && FitsIn(frame, s.median)
    requires s.i >= s.learningFrames
    requires 0 <= r < |frame| && 0 <= c < |frame[r]|
    requires !WithinTolerance(frame[r][c], s.median[r][c], s.lowThreshold)
    ensures Apply(s, frame).next.median[r][c] == s.median[r][c]
  {
  }

  /** A frame smaller than the model updates only the model's top-left
      block: a one-pixel frame against a one-by-two model, inside the
      learning window, moves the first pixel and leaves the second. */
  lemma SmallerFrameUpdatesTopLeftBlock()
    ensures var s := Bgs(1, 40, 80, 7, 30, [[[100, 100, 100], [100, 100, 100]]]);
            Apply(s, [[[105, 105, 105]]]).next.median == [[[101, 101, 101], [100, 100, 100]]]
  {
    var s := Bgs(1, 40, 80, 7, 30, [[[100, 100, 100], [100, 100, 100]]]);
    var m := Apply(s, [[[105, 105, 105]]]).next.median;
    LearningApplyStepsEveryPixel(s, [[[105, 105, 105]]]);
    assert m[0][0] == [101, 101, 101];
    assert m[0][1] == [100, 100, 100];
    assert m[0] == [[101, 101, 101], [100, 100, 100]];
  }
}

=== FILE: convergence.dfy ===
/**
 Behaviour of the subtractor over a stream of identical frames: how fast the
 model reaches the frame, and that it stays there.
 */
module Convergence {
  import opened Image
  import opened AdaptiveMedianBGS

  /** `apply` called `n` times with the same frame. */
  function FeedConstant(s: Bgs, frame: RgbImage, n: nat): (s': Bgs)
    requires s.samplingRate != 0
    requires s.i != 0 ==> FitsIn(frame, s.median)
    ensures s'.i == s.i + n
    ensures s'.lowThreshold == s.lowThreshold && s'.highThreshold == s.highThreshold
    ensures s'.samplingRate == s.samplingRate && s'.learningFrames == s.learningFrames
    ensures s'.i != 0 ==> FitsIn(frame, s'.median)
    ensures s.i != 0 ==> SameShape(s'.median, s.median)
    decreases n
  {
    if n == 0 then s else FeedConstant(Apply(s, frame).next, frame, n - 1)
  }

  /** Every channel gap of `after` to `target` is that of `before` decayed
      by `k` steps. */
  predicate PixelDecayed(target: RgbPixel, before: RgbPixel, after: RgbPixel, k: nat)
  {
    forall ch :: 0 <= ch < NUM_CHANNELS ==> Diff(target[ch], after[ch]) == Decay(Diff(target[ch], before[ch]), k)
  }

  /** `PixelDecayed` at every pixel of the frame. */
  predicate GapsDecayed(frame: RgbImage, before: RgbImage, after: RgbImage, k: nat)
    requires FitsIn(frame, before) && FitsIn(frame, after)
  {
    forall r, c :: 0 <= r < |frame| && 0 <= c < |frame[r]| ==> PixelDecayed(frame[r][c], before[r][c], after[r][c], k)
  }

  /** Number of frames in `from .. from + n - 1` that pass the frame gate. */
  function EligibleFrames(samplingRate: int, learningFrames: int, from: int, n: nat): (k: nat)
    requires samplingRate != 0
    ensures k <= n
    ensures from + n <= learningFrames ==> k == n
    decreases n
  {
    if n == 0 then 0
    else
      (if FrameGate(samplingRate, learningFrames, from) then 1 else 0)
      + EligibleFrames(samplingRate, learningFrames, from + 1, n - 1)
  }

  /** Inside the learning window every pixel moves one unit per frame toward
      a constant frame: after `n` frames each channel gap has shrunk by `n`
      (or closed). */
  lemma LearningConverges(s: Bgs, frame: RgbImage, n: nat)
    requires s.samplingRate != 0 && s.i != 0 && FitsIn(frame, s.median)
    requires s.i + n <= s.learningFrames
    ensures GapsDecayed(frame, s.median, FeedConstant(s, frame, n).median, n)
  {
    forall r, c | 0 <= r < |frame| && 0 <= c < |frame[r]|
      ensures PixelDecayed(frame[r][c], s.median[r][c], FeedConstant(s, frame, n).median[r][c], n)
    {
      LearningPixelConverges(s, frame, n, r, c);
    }
  }

  /** `LearningConverges` for one pixel. */
  lemma {:induction false} LearningPixelConverges(s: Bgs, frame: RgbImage, n: nat, r: int, c: int)
    requires s.samplingRate != 0 && s.i != 0 && FitsIn(frame, s.median)
    requires s.i + n <= s.learningFrames
    requires 0 <= r < |frame| && 0 <= c < |frame[r]|
    ensures PixelDecayed(frame[r][c], s.median[r][c], FeedConstant(s, frame, n).median[r][c], n)
    decreases n
  {
    if n > 0 {
      LearningApplyStepsEveryPixel(s, frame);
      LearningPixelConverges(Apply(s, frame).next, frame, n - 1, r, c);
      LearningStepThenRun(s, frame, n, r, c);
    }
  }

  /** One learning frame joined to the rest of a learning run, at one
      pixel. */
  lemma LearningStepThenRun(s: Bgs, frame: RgbImage, n: nat, r: int, c: int)
    requires s.samplingRate != 0 && s.i != 0 && FitsIn(frame, s.median) && n > 0
    requires 0 <= r < |frame| && 0 <= c < |frame[r]|
    requires SteppedToward(s.median[r][c], Apply(s, frame).next.median[r][c], frame[r][c])
    requires PixelDecayed(frame[r][c], Apply(s, frame).next.median[r][c],
                          FeedConstant(Apply(s, frame).next, frame, n - 1).median[r][c], n - 1)
    ensures PixelDecayed(frame[r][c], s.median[r][c], FeedConstant(s, frame, n).median[r][c], n)
  {
  }

  /** A learning window long enough to close every gap brings the model
      exactly to the frame. */
  lemma LearningReachesFrame(s: Bgs, frame: RgbImage, n: nat)
    requires s.samplingRate != 0 && s.i != 0 && SameShape(frame, s.median)
    requires s.i + n <= s.learningFrames
    requires forall r, c, ch :: 0 <= r < |frame| && 0 <= c < |frame[r]| && 0 <= ch < NUM_CHANNELS ==>
               Diff(frame[r][c][ch], s.median[r][c][ch]) <= n
    ensures FeedConstant(s, frame, n).median == frame
  {
    LearningConverges(s, frame, n);
    var m := FeedConstant(s, frame, n).median;
    forall r | 0 <= r < |frame|
      ensures m[r] == frame[r]
    {
      forall c | 0 <= c < |frame[r]|
        ensures m[r][c] == frame[r][c]
      {
        var p, q := m[r][c], frame[r][c];
        assert PixelDecayed(frame[r][c], s.median[r][c], m[r][c], n);
        forall ch | 0 <= ch < NUM_CHANNELS
          ensures p[ch] == q[ch]
        {
          assert Diff(frame[r][c][ch], m[r][c][ch]) == 0;
        }
      }
    }
  }

  /** Once the model equals the frame, feeding that frame again never
      changes it. */
  lemma {:induction false} ConvergedModelIsStable(s: Bgs, frame: RgbImage, n: nat)
    requires s.samplingRate != 0 && s.median == frame
    ensures FeedConstant(s, frame, n).median == frame
    decreases n
  {
    if n > 0 {
      var st := Apply(s, frame);
      UpdateFixedPoint(s.(median := frame), s.i, frame, st.fgmask);
      ConvergedModelIsStable(st.next, frame, n - 1);
    }
  }

  /** One frame of a background pixel's run joined to the rest of the run:
      the frame's step, if it passed the frame gate, adds one to the decay. */
  lemma BackgroundStepThenRun(s: Bgs, frame: RgbImage, n: nat, r: int, c: int)
    requires s.samplingRate != 0 && s.i != 0 && FitsIn(frame, s.median)
    requires n > 0 && 0 <= r < |frame| && 0 <= c < |frame[r]|
    requires if SamplesFrame(s, s.i) then SteppedToward(s.median[r][c], Apply(s, frame).next.median[r][c], frame[r][c])
             else Apply(s, frame).next.median[r][c] == s.median[r][c]
    requires PixelDecayed(frame[r][c], Apply(s, frame).next.median[r][c],
                          FeedConstant(Apply(s, frame).next, frame, n - 1).median[r][c],
                          EligibleFrames(s.samplingRate, s.learningFrames, s.i + 1, n - 1))
    ensures PixelDecayed(frame[r][c], s.median[r][c], FeedConstant(s, frame, n).median[r][c],
                         EligibleFrames(s.samplingRate, s.learningFrames, s.i, n))
  {
  }

  /** A pixel the low mask calls background stays background while the same
      frame keeps arriving, and every frame that passes the frame gate closes
      one more unit of each channel gap, inside or after the learning window. */
  lemma {:induction false} BackgroundPixelConverges(s: Bgs, frame: RgbImage, n: nat, r: int, c: int)
    requires s.samplingRate != 0 && s.i != 0 && FitsIn(frame, s.median)
    requires 0 <= r < |frame| && 0 <= c < |frame[r]|
    requires WithinTolerance(frame[r][c], s.median[r][c], s.lowThreshold)
    ensures WithinTolerance(frame[r][c], FeedConstant(s, frame, n).median[r][c], s.lowThreshold)
    ensures PixelDecayed(frame[r][c], s.median[r][c], FeedConstant(s, frame, n).median[r][c],
                         EligibleFrames(s.samplingRate, s.learningFrames, s.i, n))
    decreases n
  {
    if n > 0 {
      var s1 := Apply(s, frame).next;
      BackgroundPixelStep(s, frame, r, c);
      BackgroundPixelConverges(s1, frame, n - 1, r, c);
      BackgroundStepThenRun(s, frame, n, r, c);
    }
  }

  /** After the learning window a pixel the low mask calls foreground is
      never updated, so under a constant frame it stays foreground, frozen at
      its current model value, however many frames arrive. */
  lemma {:induction false} ForegroundPixelFrozen(s: Bgs, frame: RgbImage, n: nat, r: int, c: int)
    requires s.samplingRate != 0 && s.i != 0 && FitsIn(frame, s.median)
    requires s.i >= s.learningFrames
    requires 0 <= r < |frame| && 0 <= c < |frame[r]|
    requires !WithinTolerance(frame[r][c], s.median[r][c], s.lowThreshold)
    ensures FeedConstant(s, frame, n).median[r][c] == s.median[r][c]
    decreases n, 1
  {
    if n > 0 {
      ForegroundPixelStep(s, frame, r, c);
      ForegroundRunAfterStep(s, frame, n, r, c);
    }
  }

  /** The rest of a foreground pixel's run, once the first frame has left it
      alone. */
  lemma {:induction false} ForegroundRunAfterStep(s: Bgs, frame: RgbImage, n: nat, r: int, c: int)
    requires s.samplingRate != 0 && s.i != 0 && FitsIn(frame, s.median)
    requires s.i >= s.learningFrames && n > 0
    requires 0 <= r < |frame| && 0 <= c < |frame[r]|
    requires !WithinTolerance(frame[r][c], s.median[r][c], s.lowThreshold)
    requires Apply(s, frame).next.median[r][c] == s.median[r][c]
    ensures FeedConstant(s, frame, n).median[r][c] == s.median[r][c]
    decreases n, 0
  {
    var s1 := Apply(s, frame).next;
    ForegroundPixelFrozen(s1, frame, n - 1, r, c);
    assert FeedConstant(s, frame, n) == FeedConstant(s1, frame, n - 1);
  }

  /** The dual-threshold walk-through for one pixel: model 100 in every
      channel, thresholds 3 and 10, frame value 105 on every eligible frame.
      At gap 5 the pixel is foreground under the low threshold but background
      under the high one; at gap 3 it turns background under the low
      threshold, and the update keeps moving the model toward the frame. */
  lemma DualThresholdWalkthrough()
    ensures SubtractPixel(3, 10, [105, 105, 105], [100, 100, 100]) == Labels(FOREGROUND, BACKGROUND)
    ensures UpdatePixel([105, 105, 105], [100, 100, 100]) == [101, 101, 101]
    ensures SubtractPixel(3, 10, [105, 105, 105], [101, 101, 101]) == Labels(FOREGROUND, BACKGROUND)
    ensures UpdatePixel([105, 105, 105], [101, 101, 101]) == [102, 102, 102]
    ensures SubtractPixel(3, 10, [105, 105, 105], [102, 102, 102]) == Labels(BACKGROUND, BACKGROUND)
    ensures UpdatePixel([105, 105, 105], [102, 102, 102]) == [103, 103, 103]
  {
  }
}

=== FILE: image.dfy ===
/**
 Pixel and image types shared by the background subtractor, and the
 8-neighbour density post-filter over a single-channel mask.

 An OpenCV `Mat` is modelled as a sequence of rows; an RGB image holds
 three-byte pixels (`cv::Vec3b`) and a black-and-white image one byte per
 pixel (`Mat_<unsigned char>`).
 */
module Image {

  /** An `unsigned char` value. */
  type Byte = x: int | 0 <= x < 256

  /** Number of channels of an `RgbPixel`. */
  const NUM_CHANNELS: nat := 3

  /** A `cv::Vec3b`: one byte per colour channel. */
  type RgbPixel = p: seq<Byte> | |p| == 3 witness [0, 0, 0]

  type RgbImage = seq<seq<RgbPixel>>
  type BwImage = seq<seq<Byte>>

  /** Mask labels: 0 is background, 255 is foreground. */
  const BACKGROUND: Byte := 0
  const FOREGROUND: Byte := 255

  /** Number of columns of a grid (0 for a grid without rows). */
  function Cols<T>(g: seq<seq<T>>): nat
  {
    if |g| == 0 then 0 else |g[0]|
  }

  /** Every row has the same length, as in a `Mat`. */
  predicate IsRect<T>(g: seq<seq<T>>)
  {
    forall r :: 0 <= r < |g| ==> |g[r]| == Cols(g)
  }

  /** Two grids have the same rows and row lengths. */
  predicate SameShape<T, U>(a: seq<seq<T>>, b: seq<seq<U>>)
  {
    |a| == |b| && forall r :: 0 <= r < |a| ==> |a[r]| == |b[r]|
  }

  /** Grid `a` lies inside grid `b`: no more rows, and each row no longer
      than `b`'s row of the same index. */
  predicate FitsIn<T, U>(a: seq<seq<T>>, b: seq<seq<U>>)
  {
    |a| <= |b| && forall r :: 0 <= r < |a| ==> |a[r]| <= |b[r]|
  }

  /** Absolute difference of two channel values. */
  function Diff(a: int, b: int): nat
  {
    if a >= b then a - b else b - a
  }

  /** Absolute value, the distance from 0. */
  function Abs(x: int): nat
  {
    Diff(x, 0)
  }

  // ---------------------------------------------------------------------
  // Density filter
  // ---------------------------------------------------------------------

  /** The cell is not on the one-pixel border of the image. */
  predicate IsInterior<T>(image: seq<seq<T>>, r: int, c: int)
  {
    1 <= r < |image| - 1 && 1 <= c < Cols(image) - 1
  }

  /** The image has at least one interior cell. */
  predicate HasInterior<T>(image: seq<seq<T>>)
  {
    |image| >= 3 && Cols(image) >= 3
  }

  /** The output mask is large enough for every write the filter makes. */
  predicate CoversInterior<T, U>(filtered: seq<seq<T>>, image: seq<seq<U>>)
  {
    HasInterior(image) ==> |image| - 1 <= |filtered| && Cols(image) - 1 <= Cols(filtered)
  }

  /** The eight cells around a pixel, as row and column offsets. */
  const NEIGHBOURS: seq<(int, int)> :=
    [(-1, -1), (-1, 0), (-1, 1), (0, -1), (0, 1), (1, -1), (1, 0), (1, 1)]

  /** Cell (r, c) exists and holds the foreground value. */
  predicate IsFg(image: BwImage, r: int, c: int, fg: Byte)
  {
    0 <= r < |image| && 0 <= c < |image[r]| && image[r][c] == fg
  }

  /** Number of the given offsets around (r, c) whose cell is foreground. */
  function CountFg(image: BwImage, r: int, c: int, offsets: seq<(int, int)>, fg: Byte): (n: nat)
    ensures n <= |offsets|
  {
    if |offsets| == 0 then 0
    else
      var rest := CountFg(image, r, c, offsets[1..], fg);
      (if IsFg(image, r + offsets[0].0, c + offsets[0].1, fg) then 1 else 0) + rest
  }

  /** Number of the 8 neighbours of (r, c) that are foreground. */
  function FgNeighbours(image: BwImage, r: int, c: int, fg: Byte): (n: nat)
    ensures n <= |NEIGHBOURS|
  {
    CountFg(image, r, c, NEIGHBOURS, fg)
  }

  function Indicator(b: bool): nat
  {
    if b then 1 else 0
  }

  /** Peeling the first offset off a neighbour count. */
  lemma CountFgStep(image: BwImage, r: int, c: int, offsets: seq<(int, int)>, fg: Byte)
    requires |offsets| > 0
    ensures CountFg(image, r, c, offsets, fg)
            == Indicator(IsFg(image, r + offsets[0].0, c + offsets[0].1, fg)) + CountFg(image, r, c, offsets[1..], fg)
  {
  }

  /** The neighbour count as eight separate tests, one per offset. */
  lemma {:induction false} CountEachNeighbour(image: BwImage, r: int, c: int, fg: Byte)
    ensures FgNeighbours(image, r, c, fg) ==
              Indicator(IsFg(image, r - 1, c - 1, fg)) + Indicator(IsFg(image, r - 1, c, fg))
            + Indicator(IsFg(image, r - 1, c + 1, fg)) + Indicator(IsFg(image, r, c - 1, fg))
            + Indicator(IsFg(image, r, c + 1, fg)) + Indicator(IsFg(image, r + 1, c - 1, fg))
            + Indicator(IsFg(image, r + 1, c, fg)) + Indicator(IsFg(image, r + 1, c + 1, fg))
  {
    var o0 := NEIGHBOURS;
    CountFgStep(image, r, c, o0, fg);
    var o1 := o0[1..];
    CountFgStep(image, r, c, o1, fg);
    var o2 := o1[1..];
    CountFgStep(image, r, c, o2, fg);
    var o3 := o2[1..];
    CountFgStep(image, r, c, o3, fg);
    var o4 := o3[1..];
    CountFgStep(image, r, c, o4, fg);
    var o5 := o4[1..];
    CountFgStep(image, r, c, o5, fg);
    var o6 := o5[1..];
    CountFgStep(image, r, c, o6, fg);
    var o7 := o6[1..];
    CountFgStep(image, r, c, o7, fg);
    assert CountFg(image, r, c, o7[1..], fg) == 0;
  }

  /** The count the filter accumulates, one test per neighbour, equals
      the neighbour count. */
  lemma UnrolledCount(image: BwImage, r: int, c: int, fg: Byte)
    requires IsRect(image) && IsInterior(image, r, c)
    ensures FgNeighbours(image, r, c, fg) ==
              Indicator(image[r - 1][c - 1] == fg) + Indicator(image[r - 1][c] == fg)
            + Indicator(image[r - 1][c + 1] == fg) + Indicator(image[r][c - 1] == fg)
            + Indicator(image[r][c + 1] == fg) + Indicator(image[r + 1][c - 1] == fg)
            + Indicator(image[r + 1][c] == fg) + Indicator(image[r + 1][c + 1] == fg)
  {
    CountEachNeighbour(image, r, c, fg);
    assert |image[r - 1]| == |image[r]| == |image[r + 1]| == Cols(image);
  }

  /** One interior cell of the filter: a foreground pixel survives when at
      least `minDensity` of its neighbours are foreground; everything else
      becomes 0. */
  function FilterCell(image: BwImage, r: int, c: int, minDensity: int, fg: Byte): (v: Byte)
    requires IsRect(image) && IsInterior(image, r, c)
    ensures v == (if image[r][c] == fg && FgNeighbours(image, r, c, fg) >= minDensity then fg else 0)
  {
    UnrolledCount(image, r, c, fg);
    if image[r][c] == fg then
      var count :=
          Indicator(image[r - 1][c - 1] == fg) + Indicator(image[r - 1][c] == fg)
        + Indicator(image[r - 1][c + 1] == fg) + Indicator(image[r][c - 1] == fg)
        + Indicator(image[r][c + 1] == fg) + Indicator(image[r + 1][c - 1] == fg)
        + Indicator(image[r + 1][c] == fg) + Indicator(image[r + 1][c + 1] == fg);
      if count < minDensity then 0 else fg
    else
      0
  }

  /** The density filter: every interior cell of `filtered` is recomputed from
      the input mask; every other cell of `filtered` keeps its value. */
  function DensityFilter(image: BwImage, filtered: BwImage, minDensity: int, fg: Byte): (out: BwImage)
    requires IsRect(image) && IsRect(filtered) && CoversInterior(filtered, image)
    ensures SameShape(out, filtered)
    ensures forall r, c :: 0 <= r < |out| && 0 <= c < |out[r]| && !IsInterior(image, r, c) ==>
              out[r][c] == filtered[r][c]
    ensures forall r, c :: 0 <= r < |out| && 0 <= c < |out[r]| && IsInterior(image, r, c) ==>
              (out[r][c] == 0 || out[r][c] == fg)
    ensures forall r, c :: 0 <= r < |out| && 0 <= c < |out[r]| && IsInterior(image, r, c) && image[r][c] != fg ==>
              out[r][c] == 0
    ensures forall r, c :: 0 <= r < |out| && 0 <= c < |out[r]| && IsInterior(image, r, c) && image[r][c] == fg ==>
              (out[r][c] == fg <== FgNeighbours(image, r, c, fg) >= minDensity)
              && (FgNeighbours(image, r, c, fg) < minDensity ==> out[r][c] == 0)
    ensures !HasInterior(image) ==> out == filtered
  {
    var out := seq(|filtered|, r requires 0 <= r < |filtered| =>
      seq(|filtered[r]|, c requires 0 <= c < |filtered[r]| =>
        if IsInterior(image, r, c) then FilterCell(image, r, c, minDensity, fg) else filtered[r][c]));
    assert !HasInterior(image) ==> forall r :: 0 <= r < |out| ==> out[r] == filtered[r];
    out
  }

  /** The filter as the nested row-major loops write it, for an output mask
      that does not share storage with the input: each interior cell is
      written once, from the input mask alone, so the result equals the
      order-free definition above. */
  method ScanDensityFilter(image: BwImage, filtered: BwImage, minDensity: int, fg: Byte) returns (out: BwImage)
    requires IsRect(image) && IsRect(filtered) && CoversInterior(filtered, image)
    ensures out == DensityFilter(image, filtered, minDensity, fg)
  {
    out := filtered;
    var r := 1;
    while r < |image| - 1
      invariant 1 <= r && (r <= |image| - 1 || r == 1)
      invariant SameShape(out, filtered)
      invariant forall i, j :: 0 <= i < |out| && 0 <= j < |out[i]| ==>
                  out[i][j] == (if IsInterior(image, i, j) && i < r then FilterCell(image, i, j, minDensity, fg) else filtered[i][j])
    {
      var c := 1;
      while c < Cols(image) - 1
        invariant 1 <= c && (c <= Cols(image) - 1 || c == 1)
        invariant SameShape(out, filtered)
        invariant forall i, j :: 0 <= i < |out| && 0 <= j < |out[i]| ==>
                    out[i][j] == (if IsInterior(image, i, j) && (i < r || (i == r && j < c))
                                  then FilterCell(image, i, j, minDensity, fg) else filtered[i][j])
      {
        var v: Byte := FilterCell(image, r, c, minDensity, fg);
        var row: seq<Byte> := out[r][c := v];
        out := out[r := row];
        c := c + 1;
      }
      r := r + 1;
    }
    var expected := DensityFilter(image, filtered, minDensity, fg);
    forall i | 0 <= i < |out|
      ensures out[i] == expected[i]
    {
    }
  }

  /** With `minDensity` at most 0 every interior foreground pixel survives. */
  lemma NonPositiveDensityKeepsForeground(image: BwImage, filtered: BwImage, minDensity: int, fg: Byte)
    requires IsRect(image) && IsRect(filtered) && CoversInterior(filtered, image)
    requires minDensity <= 0
    ensures var out := DensityFilter(image, filtered, minDensity, fg);
            forall r, c :: 0 <= r < |out| && 0 <= c < |out[r]| && IsInterior(image, r, c) ==>
              out[r][c] == (if image[r][c] == fg then fg else 0)
  {
  }

  /** With `minDensity` above 8 no interior pixel survives. */
  lemma ExcessiveDensityClearsInterior(image: BwImage, filtered: BwImage, minDensity: int, fg: Byte)
    requires IsRect(image) && IsRect(filtered) && CoversInterior(filtered, image)
    requires minDensity > |NEIGHBOURS|
    ensures var out := DensityFilter(image, filtered, minDensity, fg);
            forall r, c :: 0 <= r < |out| && 0 <= c < |out[r]| && IsInterior(image, r, c) ==> out[r][c] == 0
  {
  }

  /** On the interior the filter only removes foreground: an output cell equal
      to a non-zero foreground value was foreground in the input. */
  lemma FilterOnlyRemovesForeground(image: BwImage, filtered: BwImage, minDensity: int, fg: Byte)
    requires IsRect(image) && IsRect(filtered) && CoversInterior(filtered, image)
    requires fg != 0
    ensures var out := DensityFilter(image, filtered, minDensity, fg);
            forall r, c :: 0 <= r < |out| && 0 <= c < |out[r]| && IsInterior(image, r, c) && out[r][c] == fg ==>
              image[r][c] == fg
  {
  }

  /** A 5x5 all-foreground mask with `minDensity` 5, filtered into a separate
      copy of itself: the centre pixel, with 8 foreground neighbours,
      survives. */
  lemma DensityWalkthroughKept()
    ensures var full: BwImage := [[255, 255, 255, 255, 255], [255, 255, 255, 255, 255], [255, 255, 255, 255, 255],
                                  [255, 255, 255, 255, 255], [255, 255, 255, 255, 255]];
            DensityFilter(full, full, 5, 255)[2][2] == 255
  {
  }

  /** The same mask with 4 of the centre's neighbours cleared, again filtered
      into a separate copy: the centre, now with 4 foreground neighbours, is
      removed. */
  lemma DensityWalkthroughRemoved()
    ensures var holed: BwImage := [[255, 255, 255, 255, 255], [255, 0, 0, 0, 255], [255, 0, 255, 255, 255],
                                   [255, 255, 255, 255, 255], [255, 255, 255, 255, 255]];
            DensityFilter(holed, holed, 5, 255)[2][2] == 0
  {
  }

  /** With foreground value 0 the filter can add foreground: an interior cell
      that is not foreground in the input is written 0, which is then the
      foreground value. The output is a separate copy of the input. */
  lemma ZeroForegroundValueAddsForeground()
    ensures var mask: BwImage := [[255, 255, 255], [255, 255, 255], [255, 255, 255]];
            mask[1][1] != 0 && DensityFilter(mask, mask, 0, 0)[1][1] == 0
  {
  }

  // ---------------------------------------------------------------------
  // The filter run in place
  // ---------------------------------------------------------------------

  /** Cell (i, j) comes before cell (r, c) in row-major order. */
  predicate Before(i: int, j: int, r: int, c: int)
  {
    i < r || (i == r && j < c)
  }

  /** The mask after the scan writes cell (r, c) in place. */
  function ScanStep(g: BwImage, r: int, c: int, minDensity: int, fg: Byte): (g': BwImage)
    requires IsRect(g) && IsInterior(g, r, c)
    ensures SameShape(g', g) && IsRect(g') && Cols(g') == Cols(g)
    ensures forall i, j :: 0 <= i < |g| && 0 <= j < |g[i]| && (i != r || j != c) ==> g'[i][j] == g[i][j]
    ensures g'[r][c] == FilterCell(g, r, c, minDensity, fg)
    ensures fg != 0 ==> forall i, j :: 0 <= i < |g| && 0 <= j < |g[i]| && g'[i][j] == fg ==> g[i][j] == fg
  {
    var v: Byte := FilterCell(g, r, c, minDensity, fg);
    var row: seq<Byte> := g[r][c := v];
    g[r := row]
  }

  /** The same loops when `image` and `filtered` are one mask: the scan
      continues from cell (r, c), and each cell is computed from the mask as
      the earlier writes left it. */
  function FilterInPlaceFrom(g: BwImage, r: int, c: int, minDensity: int, fg: Byte): (out: BwImage)
    requires IsRect(g) && 1 <= r && 1 <= c
    ensures SameShape(out, g) && IsRect(out)
    ensures forall i, j :: 0 <= i < |g| && 0 <= j < |g[i]| && (!IsInterior(g, i, j) || Before(i, j, r, c)) ==>
              out[i][j] == g[i][j]
    ensures forall i, j :: 0 <= i < |g| && 0 <= j < |g[i]| && IsInterior(g, i, j) && !Before(i, j, r, c) ==>
              (out[i][j] == 0 || out[i][j] == fg)
    ensures forall i, j :: 0 <= i < |g| && 0 <= j < |g[i]| && IsInterior(g, i, j) && !Before(i, j, r, c) && g[i][j] != fg ==>
              out[i][j] == 0
    ensures fg != 0 ==> forall i, j :: 0 <= i < |g| && 0 <= j < |g[i]| && out[i][j] == fg ==> g[i][j] == fg
    decreases |g| - r, Cols(g) - c
  {
    if r >= |g| - 1 then g
    else if c >= Cols(g) - 1 then FilterInPlaceFrom(g, r + 1, 1, minDensity, fg)
    else FilterInPlaceFrom(ScanStep(g, r, c, minDensity, fg), r, c + 1, minDensity, fg)
  }

  /** `DensityFilter(mask, mask, minDensity, fg)` on one shared mask. The
      border is untouched and every interior cell becomes 0 or the foreground
      value, as with separate masks, but a cell's neighbour count sees the
      writes already made above and to the left of it. */
  function DensityFilterInPlace(mask: BwImage, minDensity: int, fg: Byte): (out: BwImage)
    requires IsRect(mask)
    ensures SameShape(out, mask)
    ensures forall r, c :: 0 <= r < |mask| && 0 <= c < |mask[r]| && !IsInterior(mask, r, c) ==>
              out[r][c] == mask[r][c]
    ensures forall r, c :: 0 <= r < |mask| && 0 <= c < |mask[r]| && IsInterior(mask, r, c) ==>
              (out[r][c] == 0 || out[r][c] == fg)
    ensures forall r, c :: 0 <= r < |mask| && 0 <= c < |mask[r]| && IsInterior(mask, r, c) && mask[r][c] != fg ==>
              out[r][c] == 0
  {
    FilterInPlaceFrom(mask, 1, 1, minDensity, fg)
  }

  /** Every foreground cell of `a` is a foreground cell of `b`. */
  predicate FgAmong(a: BwImage, b: BwImage, fg: Byte)
    requires SameShape(a, b)
  {
    forall i, j :: 0 <= i < |a| && 0 <= j < |a[i]| && a[i][j] == fg ==> b[i][j] == fg
  }

  /** A mask whose foreground cells are among `b`'s has no more foreground
      neighbours anywhere. */
  lemma {:induction false} CountFgMonotone(a: BwImage, b: BwImage, r: int, c: int, offsets: seq<(int, int)>, fg: Byte)
    requires SameShape(a, b)
    requires FgAmong(a, b, fg)
    ensures CountFg(a, r, c, offsets, fg) <= CountFg(b, r, c, offsets, fg)
    decreases |offsets|
  {
    if |offsets| > 0 {
      CountFgMonotone(a, b, r, c, offsets[1..], fg);
      assert IsFg(a, r + offsets[0].0, c + offsets[0].1, fg) ==> IsFg(b, r + offsets[0].0, c + offsets[0].1, fg);
    }
  }

  /** The separate-mask filter keeps cell (r, c) of `image`: it is
      foreground with at least `minDensity` foreground neighbours. */
  predicate Survives(image: BwImage, r: int, c: int, minDensity: int, fg: Byte)
    requires 0 <= r < |image| && 0 <= c < |image[r]|
  {
    image[r][c] == fg && FgNeighbours(image, r, c, fg) >= minDensity
  }

  /** One step of the in-place scan keeps a cell only if it is foreground in
      `orig` with enough foreground neighbours there, as long as `g`'s
      foreground is among `orig`'s and the foreground value is not 0. */
  lemma KeptCellKeptSeparately(g: BwImage, orig: BwImage, r: int, c: int, minDensity: int, fg: Byte)
    requires IsRect(g) && SameShape(g, orig) && IsInterior(g, r, c) && fg != 0
    requires FgAmong(g, orig, fg)
    requires FilterCell(g, r, c, minDensity, fg) == fg
    ensures Survives(orig, r, c, minDensity, fg)
  {
    CountFgMonotone(g, orig, r, c, NEIGHBOURS, fg);
  }

  /** Every interior cell of `g` from (r, c) on that `out` holds as
      foreground survives the separate-mask filter of `orig`. */
  predicate KeepsOnlySurvivors(g: BwImage, out: BwImage, orig: BwImage, r: int, c: int, minDensity: int, fg: Byte)
    requires SameShape(out, g) && SameShape(g, orig)
  {
    forall i, j :: 0 <= i < |g| && 0 <= j < |g[i]| && IsInterior(g, i, j) && !Before(i, j, r, c) && out[i][j] == fg ==>
      Survives(orig, i, j, minDensity, fg)
  }

  /** The scan at an interior cell: the cell is written, and the scan
      goes on from the next column over the updated mask. */
  lemma {:induction false} KeptAfterStep(g: BwImage, orig: BwImage, r: int, c: int, minDensity: int, fg: Byte)
    requires IsRect(g) && SameShape(g, orig) && IsInterior(g, r, c) && fg != 0
    requires FgAmong(g, orig, fg)
    ensures KeepsOnlySurvivors(g, FilterInPlaceFrom(g, r, c, minDensity, fg), orig, r, c, minDensity, fg)
    decreases |g| - r, Cols(g) - c, 0
  {
    ScanStepKeepsSubset(g, orig, r, c, minDensity, fg);
    InPlaceKeepsOnlyKept(ScanStep(g, r, c, minDensity, fg), orig, r, c + 1, minDensity, fg);
    KeptAfterStepJoin(g, orig, r, c, minDensity, fg);
  }

  /** A step of the scan adds no foreground, so the foreground of its result
      is still among `orig`'s. */
  lemma ScanStepKeepsSubset(g: BwImage, orig: BwImage, r: int, c: int, minDensity: int, fg: Byte)
    requires IsRect(g) && SameShape(g, orig) && IsInterior(g, r, c) && fg != 0
    requires FgAmong(g, orig, fg)
    ensures FgAmong(ScanStep(g, r, c, minDensity, fg), orig, fg)
  {
  }

  /** The cell written at (r, c) and the cells the rest of the scan keeps
      are all survivors of `orig`. */
  lemma KeptAfterStepJoin(g: BwImage, orig: BwImage, r: int, c: int, minDensity: int, fg: Byte)
    requires IsRect(g) && SameShape(g, orig) && IsInterior(g, r, c) && fg != 0
    requires FgAmong(g, orig, fg)
    requires var g' := ScanStep(g, r, c, minDensity, fg);
             KeepsOnlySurvivors(g', FilterInPlaceFrom(g', r, c + 1, minDensity, fg), orig, r, c + 1, minDensity, fg)
    ensures KeepsOnlySurvivors(g, FilterInPlaceFrom(g, r, c, minDensity, fg), orig, r, c, minDensity, fg)
  {
    var g' := ScanStep(g, r, c, minDensity, fg);
    var out := FilterInPlaceFrom(g', r, c + 1, minDensity, fg);
    assert out == FilterInPlaceFrom(g, r, c, minDensity, fg) by {
      assert r < |g| - 1 && c < Cols(g) - 1;
    }
    assert out[r][c] == g'[r][c] by {
      assert Before(r, c, r, c + 1);
    }
    forall i, j | 0 <= i < |g| && 0 <= j < |g[i]| && IsInterior(g, i, j) && !Before(i, j, r, c) && out[i][j] == fg
      ensures Survives(orig, i, j, minDensity, fg)
    {
      if i == r && j == c {
        KeptCellKeptSeparately(g, orig, r, c, minDensity, fg);
      } else {
        assert IsInterior(g', i, j) && !Before(i, j, r, c + 1);
      }
    }
  }

  /** The end of a row: the scan from (r, c), past the last interior column,
      is the scan from the start of the next row. */
  lemma {:induction false} KeptAtRowEnd(g: BwImage, orig: BwImage, r: int, c: int, minDensity: int, fg: Byte)
    requires IsRect(g) && SameShape(g, orig) && 1 <= r < |g| - 1 && 1 <= c && c >= Cols(g) - 1 && fg != 0
    requires FgAmong(g, orig, fg)
    ensures KeepsOnlySurvivors(g, FilterInPlaceFrom(g, r, c, minDensity, fg), orig, r, c, minDensity, fg)
    decreases |g| - r, Cols(g) - c, 0
  {
    InPlaceKeepsOnlyKept(g, orig, r + 1, 1, minDensity, fg);
    assert FilterInPlaceFrom(g, r, c, minDensity, fg) == FilterInPlaceFrom(g, r + 1, 1, minDensity, fg);
  }

  /** Past the last interior row nothing is left to write. */
  lemma KeptPastLastRow(g: BwImage, orig: BwImage, r: int, c: int, minDensity: int, fg: Byte)
    requires IsRect(g) && SameShape(g, orig) && 1 <= r && 1 <= c && r >= |g| - 1
    ensures KeepsOnlySurvivors(g, FilterInPlaceFrom(g, r, c, minDensity, fg), orig, r, c, minDensity, fg)
  {
  }

  /** From cell (r, c) on, a scan over a mask `g` whose foreground is among
      `orig`'s keeps a cell only if it is foreground in `orig` with enough
      foreground neighbours there. */
  lemma {:induction false} InPlaceKeepsOnlyKept(g: BwImage, orig: BwImage, r: int, c: int, minDensity: int, fg: Byte)
    requires IsRect(g) && SameShape(g, orig) && 1 <= r && 1 <= c && fg != 0
    requires FgAmong(g, orig, fg)
    ensures KeepsOnlySurvivors(g, FilterInPlaceFrom(g, r, c, minDensity, fg), orig, r, c, minDensity, fg)
    decreases |g| - r, Cols(g) - c, 1
  {
    if r >= |g| - 1 {
      KeptPastLastRow(g, orig, r, c, minDensity, fg);
    } else if c >= Cols(g) - 1 {
      KeptAtRowEnd(g, orig, r, c, minDensity, fg);
    } else {
      KeptAfterStep(g, orig, r, c, minDensity, fg);
    }
  }

  /** The in-place run removes at least what the separate-mask filter
      removes: a cell it keeps as foreground the separate filter keeps too.
      With foreground value 0 both runs write 0 into every interior cell. */
  lemma InPlaceRemovesAtLeastAsMuch(mask: BwImage, minDensity: int, fg: Byte)
    requires IsRect(mask)
    ensures var out := DensityFilterInPlace(mask, minDensity, fg);
            var expected := DensityFilter(mask, mask, minDensity, fg);
            forall r, c :: 0 <= r < |mask| && 0 <= c < |mask[r]| && out[r][c] == fg ==> expected[r][c] == fg
  {
    if fg != 0 {
      InPlaceKeepsOnlyKept(mask, mask, 1, 1, minDensity, fg);
      var out := DensityFilterInPlace(mask, minDensity, fg);
      forall r, c | 0 <= r < |mask| && 0 <= c < |mask[r]| && out[r][c] == fg
        ensures DensityFilter(mask, mask, minDensity, fg)[r][c] == fg
      {
        if IsInterior(mask, r, c) {
          assert !Before(r, c, 1, 1);
        }
      }
    }
  }

  /** The two runs differ: a 4x4 all-foreground mask with its corner cleared
      and `minDensity` 8. With separate masks cell (1, 2) has 8 foreground
      neighbours and survives; in place, cell (1, 1) has already been
      cleared when (1, 2) is counted, so (1, 2) is removed. */
  lemma InPlaceDiffersFromSeparateMasks()
    ensures var mask: BwImage := [[0, 255, 255, 255], [255, 255, 255, 255], [255, 255, 255, 255], [255, 255, 255, 255]];
            DensityFilter(mask, mask, 8, 255)[1][2] == 255 && DensityFilterInPlace(mask, 8, 255)[1][2] == 0
  {
  }
}
